=== FILE: README.md ===
# typefast typing-test core, in Dafny

This project models the core of typefast, a terminal typing test. The user
is shown a list of target words and types them one keystroke at a time. For
each word the program keeps what was typed and classifies every displayed
letter as correct, wrong, not yet typed, or overflow (typed past the end of
the target). It counts correct and wrong keystrokes and derives accuracy and
words per minute from the counts. It draws a two-line viewport: the text
around the cursor, held at a fixed column, and an annotation line under it.

The model is functional. Words, tests and counters are immutable datatypes,
and every transition is a pure function that returns the new state.

- `Stats` (`stats.dfy`) holds the two keystroke counters and the accuracy
  and WPM formulas. The formulas use exact `real` arithmetic.
- `Words` (`words.dfy`) holds one word:
  - its target letters;
  - an input buffer that uses the character 0 as the "not typed" sentinel;
  - a cursor.
  It also holds the effective length `Len` and the classification `Runes`.
  `Words.Valid` is the shape a word keeps:
  - the buffer is a whole multiple of the target length;
  - the buffer is between one and four times the target length;
  - the cursor is inside the buffer or just past it.
  Two invariants about the cursor are defined there:
  - `Words.ClearAhead`: nothing is stored at or after the cursor. Every
    keystroke keeps it. Under it, typing a non-empty character that can be
    stored (the buffer is not at the cap) and then deleting it restores the
    cursor and the display.
  - `Words.Tidy`: `ClearAhead`, and every overflow slot before the cursor
    holds a typed character. Under it the cursor never passes the effective
    length. It holds as long as the 0 character is never typed.
- `TypeTest` (`test.dfy`) is the state machine: `New`, `Enter` (a typed
  character), `Space` (confirm the word) and `Delete` (backspace).
- `Viewport` (`viewport.dfy`) is the renderer. `Render` mirrors the
  program's loops: the backward walk to the left edge, the scan up to the
  cursor column, and the scan after it. Its contract is stated against a
  reference layout: the last `(width-1)/2` cells of the classified text
  before the cursor, then the text still to type.
- `Session` (`session.dfy`) chains keystrokes into whole sessions and
  proves the score of a test typed without a mistake.
- `Wrappers` (`wrappers.dfy`) holds the `Option` type used for "no word".

Characters are `char`. Output cells are (glyph, style) pairs, where the
style is plain or the style of a letter status. Colours and escape codes are
not modelled.

Two facts about the renderer:
- From the cursor column on, the program draws every primary cell,
  including the one under the cursor, in the not-yet-typed style.
- The backward walk stops at the first word, and it steps onto an earlier
  word only while the offset is positive, so the starting letter never lies
  past that word's end (`Viewport.WalkBack`, `Viewport.ScanStart`).

`internal/typetest/word.go` names its members with capitals, and
`internal/typetest/test.go` uses lower-case names for the same members. The
model treats each pair as one member:
- `word` is `Word`;
- `newWord` is `NewWord`;
- `length()` is `Len()`;
- `runes()` is `Runes()`;
- the `ls…` constants are the `LS…` ones.

## Model

| member | source | states |
|---|---|---|
| Stats.New | internal/stats/stats.go:10-12 | a new counter pair has no keystrokes at all |
| Stats.AddCorrect | internal/typetest/test.go:143 | a correct keystroke adds one to the correct count, leaves the wrong count alone and adds one to the total |
| Stats.AddWrong | internal/typetest/test.go:145 | a wrong keystroke adds one to the wrong count, leaves the correct count alone and adds one to the total |
| Stats.Accuracy | internal/stats/stats.go:14-19 | accuracy is 0 when there is no correct keystroke, whatever the wrong count; otherwise it lies in (0, 1] and times the total gives the correct count |
| Stats.AccuracyOneIffNoWrong | internal/stats/stats.go:18 | accuracy is exactly 1 if and only if there is a correct keystroke and no wrong one |
| Stats.WPMRaw | internal/stats/stats.go:21-26 | raw speed is 0 for elapsed time of 0 minutes or less; otherwise it is non-negative and times 5 times the minutes gives the total keystrokes |
| Stats.WPM | internal/stats/stats.go:28-33 | net speed is 0 for elapsed time of 0 minutes or less; otherwise it is non-negative and times 5 times the minutes gives the correct keystrokes |
| Stats.WPMAtMostRaw | internal/stats/stats.go:25-32 | net speed lies between 0 and raw speed |
| Stats.WPMIsRawTimesAccuracy | internal/stats/stats.go:18-32 | net speed equals raw speed times accuracy |
| Words.NewWord | internal/typetest/word.go:23-38 | there is no word for the empty string; otherwise the targets are the string's characters, the buffer has the same length and is all untyped, the cursor is 0, and the word is valid and tidy |
| Words.TrimmedEnd | internal/typetest/word.go:69-75 | the downward scan returns one past the highest typed slot in the range, or the range's low end when every slot in the range is untyped; every slot from the result to the range's top is untyped |
| Words.Len | internal/typetest/word.go:68-76 | the effective length is at least the target length and at most the buffer length |
| Words.LenSpec | internal/typetest/word.go:69-75 | beyond the target the effective length ends at the last typed overflow slot, and every slot from it on is untyped; it equals the target length exactly when no overflow slot is typed |
| Words.LenIgnoresAppendedZeros | internal/typetest/word.go:68-76 | appending untyped slots, as buffer growth does, leaves the effective length unchanged |
| Words.Runes | internal/typetest/word.go:40-43 | both output sequences are exactly as long as the effective length |
| Words.RunesSpec | internal/typetest/word.go:45-63 | inside the target a slot is correct iff it holds the target letter, and is then shown as typed; an untyped slot (0 or a blank) is not-yet-typed and shows the target letter; any other slot is wrong and shows the typed character; every position beyond the target is overflow and shows what was typed; no position is classified as the cursor |
| Words.RunesDependOnVisibleSlots | internal/typetest/word.go:40-66 | the classification depends only on the targets and on the slots below the effective length |
| Words.TidyLen | internal/typetest/word.go:68-76 | for a tidy word the effective length is the larger of the target length and the cursor, so the cursor never passes it |
| TypeTest.New | internal/typetest/test.go:29-40 | the test has one word per target, each equal to a fresh word for that target, with those letters and the cursor at 0; it starts at word 0 with zero counters, and it is valid when there is a word and tidy |
| TypeTest.Enter | internal/typetest/test.go:127-153 | exactly one keystroke is counted and the test stays valid. At the cap, only the wrong count moves and no word changes. Otherwise a full buffer grows by one target length of untyped slots, the character is stored at the cursor, the cursor advances, every other slot and word is kept, and the keystroke adds one to the correct count when the cursor was inside the target and the character matches the letter there, and one to the wrong count otherwise |
| TypeTest.Space | internal/typetest/test.go:155-171 | no word changes; a space counts as correct iff the cursor has reached the target length, and as wrong otherwise; it reports the end iff the active word is the last, and otherwise moves to the next word |
| TypeTest.Clamp | internal/typetest/test.go:176-178 | the clamp keeps the targets and the buffer; a cursor inside the buffer is kept; a cursor at or past the end of the buffer lands at the effective length: not below the target length, from where every slot is untyped, and just after a typed overflow slot when beyond the target |
| TypeTest.Delete | internal/typetest/test.go:173-190 | the counters never change and the test stays valid. When the clamped cursor is 0, no word changes and the active index drops by one unless it is already 0. Otherwise the cursor steps back and that slot becomes untyped; every other word is kept |
| TypeTest.ClampKeepsTidyWord | internal/typetest/test.go:176-178 | on a tidy valid word the clamp before a deletion leaves the cursor where it is |
| TypeTest.EnterKeepsTidy | internal/typetest/test.go:127-153 | typing a non-empty character keeps every word tidy |
| TypeTest.SpaceKeepsTidy | internal/typetest/test.go:155-171 | a space keeps every word tidy |
| TypeTest.DeleteKeepsTidy | internal/typetest/test.go:173-190 | a backspace keeps every word tidy |
| TypeTest.EnterThenDeleteRestores | internal/typetest/test.go:130-189 | on a word with nothing stored at or after the cursor, typing a storable non-empty character and then deleting it restores the active index, the cursor and the displayed classification; it changes no other word and counts one keystroke |
| TypeTest.EnterKeepsClear | internal/typetest/test.go:127-153 | typing any character, 0 included, keeps every word clear at and after its cursor |
| TypeTest.SpaceKeepsClear | internal/typetest/test.go:155-171 | a space keeps every word clear at and after its cursor |
| TypeTest.DeleteKeepsClear | internal/typetest/test.go:173-190 | a backspace keeps every word clear at and after its cursor |
| TypeTest.EmptyRuneSkipsBack | internal/typetest/test.go:176-189 | on "a" typed correctly, typing the 0 character and deleting it erases the correct letter and leaves the cursor at 0 instead of 1 |
| Session.TypeChars | internal/typetest/test.go:127-153 | typing a string counts one keystroke per character, keeps the test valid and keeps the active word |
| Session.TypeText | main.go:95-104 | feeding each target's characters and then a space, word after word, stopping at the space that ends the test, keeps the test valid and its number of words |
| Session.TypeTextStopsAtEnd | main.go:95-98 | once the space after the last word reports the end, the targets still left are not typed: "a" then "b" on the one-word test "a" scores 2 correct and 0 wrong |
| Session.TypeCharsExact | internal/typetest/test.go:141-152 | typing the rest of the active target from the cursor counts one correct keystroke per character and no wrong one, and moves the cursor by the number typed |
| Session.TypeTextExact | internal/typetest/test.go:127-171 | typing every remaining untouched target exactly, each followed by a space, counts one correct keystroke per letter and per space and no wrong one, and ends on the last word |
| Session.ExactTypingScores | internal/typetest/test.go:29-171 | a new test typed without a mistake scores the total number of letters plus the number of words as correct keystrokes, and 0 wrong ones |
| Viewport.Annotate | internal/typetest/test.go:90-99 | under a wrong letter the annotation is a tilde, under an overflow letter a hash, under a not-yet-typed letter a backtick, and under anything else a blank; it is never the caret |
| Viewport.ValidRenderable | internal/typetest/test.go:52-71 | every valid test can be rendered |
| Viewport.WalkBack | internal/typetest/test.go:54-59 | the walk stops at or before the active word; it subtracts exactly the text columns of the words it passes; it steps onto a word only while the offset is positive; a positive leftover offset means it reached the first word |
| Viewport.ScanStart | internal/typetest/test.go:50-66 | the starting word is at or before the active word; before the active word the starting letter lies within its word, and in the active word it is at most the cursor; leading blanks occur only before the first letter of the first word; the starting position plus the cursor column equals the cursor's text position plus the blanks |
| Viewport.PastCell | internal/typetest/test.go:74-101 | one column of the scan before the cursor draws the next classified cell of the text, or stops at the end of the last word |
| Viewport.ScanPast | internal/typetest/test.go:73-102 | the scan before the cursor yields the first cells of the classified text from the starting position, each annotated; when it starts inside a word it ends at the text position it reached |
| Viewport.FutureCell | internal/typetest/test.go:107-121 | one column of the scan from the cursor draws the next character in the not-yet-typed style or a separator, moving to the next word's target letters, or stops at the end of the last word |
| Viewport.ScanFuture | internal/typetest/test.go:106-122 | the scan from the cursor yields the first cells of the rest of the active word's display, then the later words' targets with separators; every cell is a blank or in the not-yet-typed style |
| Viewport.LayoutAnchor | internal/typetest/test.go:50-122 | with the cursor inside its word, the cursor column shows the active word's character under the cursor, or the separator when the word is finished and another follows; the line never exceeds the width |
| Viewport.StartShowsWindow | internal/typetest/test.go:50-73 | the blanks in front plus the text scanned up to the cursor column make up the window of the text before the cursor |
| Viewport.PastScanEndsAtCursor | internal/typetest/test.go:73-102 | with the cursor inside its word, the scan before the cursor fills every column up to it and stops exactly at the cursor |
| Viewport.ScansMakeLayout | internal/typetest/test.go:68-122 | with the cursor inside its word, the blanks, the scan before the cursor and the scan after it make up the reference layout |
| Viewport.Lines | internal/typetest/test.go:68-104 | the annotation line ends with the caret right after the annotated columns, and annotates each primary cell before it |
| Viewport.Scan | internal/typetest/test.go:50-122 | the padding and the past cells never pass the cursor column, and the future cells fit the rest of the width; with the cursor inside its word they fill the columns up to the cursor exactly and give the reference layout |
| Viewport.Render | internal/typetest/test.go:42-125 | width 0 or less gives two empty lines; otherwise the primary line has at most width cells, and the annotation line has at most (width-1)/2+1 cells and ends with the caret. Each annotation is the annotation of the primary cell above it, and the cells from the caret column on are blanks or not-yet-typed. With the cursor inside its word, the caret sits at column (width-1)/2 and the primary line is the reference layout |

## Left out

- The host loop in `main.go` is not modelled: the Bubble Tea event dispatch, the stopwatch, flag parsing, header and footer, and the live figures. Elapsed time is an input of `Stats.WPMRaw` and `Stats.WPM`.
- Session.TypeText: does not model the host ignoring a space while its timer is stopped. The timer starts on the first typed character, so the model differs only when the first target it feeds is empty and nothing was typed before it.
- The text sources `internal/text/text.go` and `internal/text/randomizer.go` are not modelled. They do file reading and random sampling. Their only effect kept here is the precondition of `TypeTest.New`: every target word is non-empty. The program would crash on an empty one.
- Colour styles and escape codes are left out. A cell carries its status instead.
- Floating-point rounding and the duration-to-minutes conversion are left out. The formulas use exact reals.
- UTF-8 decoding of the target strings is left out. A word is a sequence of `char`.
- The counters, cursor and active index are unbounded naturals. Go's `int` cannot overflow at the counts a session reaches.
- Go slice aliasing and reallocation are left out. A buffer is a value sequence.
- Words.Runes: its own contract states only the lengths. The classification is stated by `Words.RunesSpec`.
- Viewport.Render: the exact layout is promised only when the active word's cursor is at most its effective length. That always holds for a tidy word (`Words.TidyLen`). A cursor beyond the effective length arises only after typing the 0 character into overflow. In that case only the sizes, the caret and the annotations are promised.
- Viewport.PastCell: it recomputes the word's classification for each column, where the program keeps it for the whole word. The classification is a pure function of the word, so the cells are the same.
- TypeTest.EnterKeepsTidy: it requires a non-empty character. After a 0 is typed into an overflow slot, the next backspace erases both the 0 and the letter before it, as `TypeTest.EmptyRuneSkipsBack` shows; `Words.ClearAhead` still holds there (`TypeTest.EnterKeepsClear`).

=== FILE: session.dfy ===
/** Whole typing sessions: sequences of keystrokes fed to the state machine
    of `TypeTest` one at a time, as the host loop delivers them. */
module Session {

  import opened TypeTest
  import Stats

  /** Types every character of `s`, in order, into the active word. */
  function TypeChars(t: Test, s: seq<char>): (t': Test)
    requires TypeTest.Valid(t)
    ensures TypeTest.Valid(t') && t'.current == t.current && |t'.words| == |t.words|
    ensures Stats.Total(t'.stats) == Stats.Total(t.stats) + |s|
    decreases |s|
  {
    if s == [] then t else TypeChars(Enter(t, s[0]), s[1..])
  }

  /** Types each target of `ss` followed by a space, word after word, and
      stops as soon as a space reports the end of the test, where the host
      quits. */
  function TypeText(t: Test, ss: seq<seq<char>>): (t': Test)
    requires TypeTest.Valid(t)
    ensures TypeTest.Valid(t') && |t'.words| == |t.words|
    decreases |ss|
  {
    if ss == [] then t
    else
      var (t1, end) := Space(TypeChars(t, ss[0]));
      if end then t1 else TypeText(t1, ss[1..])
  }

  /** On a one-word test, extra targets after the last word are never typed:
      the space after the word ends the test and the score stays at one
      correct keystroke per letter plus one for the space. */
  lemma TypeTextStopsAtEnd()
    ensures var t := TypeText(New(["a"]), ["a", "b"]);
      t.stats.correct == 2 && t.stats.wrong == 0
  {
    var t0 := New(["a"]);
    var t1 := Enter(t0, 'a');
    assert TypeChars(t0, "a") == TypeChars(t1, "") == t1;
    assert Space(t1).1;
  }

  /** The number of letters in all the targets together. */
  function TotalLetters(ss: seq<seq<char>>): nat
  {
    if ss == [] then 0 else |ss[0]| + TotalLetters(ss[1..])
  }

  /** Typing the rest `u` of the active word's target, starting exactly where
      the cursor is, counts one correct keystroke per character and no wrong
      one, moves the cursor to the end of what was typed and leaves every
      other word alone. */
  lemma {:induction false} TypeCharsExact(t: Test, u: seq<char>)
    requires TypeTest.Valid(t)
    requires Active(t).cursor + |u| <= |Active(t).letters|
    requires u == Active(t).letters[Active(t).cursor..Active(t).cursor + |u|]
    ensures var t' := TypeChars(t, u);
      && t'.stats.correct == t.stats.correct + |u|
      && t'.stats.wrong == t.stats.wrong
      && Active(t').letters == Active(t).letters
      && Active(t').cursor == Active(t).cursor + |u|
      && forall i :: 0 <= i < |t.words| && i != t.current ==> t'.words[i] == t.words[i]
    decreases |u|
  {
    if u != [] {
      var w := Active(t);
      assert w.cursor < |w.letters| <= |w.input|;
      assert u[0] == w.letters[w.cursor];
      var t1 := Enter(t, u[0]);
      assert u[1..] == Active(t1).letters[Active(t1).cursor..Active(t1).cursor + |u[1..]|];
      TypeCharsExact(t1, u[1..]);
    }
  }

  /** Typing the targets of the active word and of every word after it, each
      exactly and each followed by a space, from untouched words on, counts
      one correct keystroke per letter and one per space and no wrong one,
      and leaves the last word active. */
  lemma {:induction false} TypeTextExact(t: Test, ss: seq<seq<char>>)
    requires TypeTest.Valid(t)
    requires |ss| == |t.words| - t.current
    requires forall k :: 0 <= k < |ss| ==>
      t.words[t.current + k].letters == ss[k] && t.words[t.current + k].cursor == 0
    ensures var t' := TypeText(t, ss);
      && t'.stats.correct == t.stats.correct + TotalLetters(ss) + |ss|
      && t'.stats.wrong == t.stats.wrong
      && t'.current + 1 == t.current + |ss|
    decreases |ss|
  {
    var t1 := TypeChars(t, ss[0]);
    assert ss[0] == Active(t).letters[0..|ss[0]|];
    TypeCharsExact(t, ss[0]);
    var (t2, end) := Space(t1);
    if |ss| > 1 {
      assert !end && t2.current == t.current + 1 && t2.words == t1.words;
      forall k | 0 <= k < |ss| - 1
        ensures t2.words[t2.current + k].letters == ss[1..][k] && t2.words[t2.current + k].cursor == 0
      {
        var i := t.current + 1 + k;
        assert i != t.current && t1.words[i] == t.words[i];
        assert t.words[i].letters == ss[1 + k] && t.words[i].cursor == 0;
      }
      TypeTextExact(t2, ss[1..]);
    } else {
      assert TypeText(t2, ss[1..]) == t2;
    }
  }

  /** A test over non-empty targets, typed exactly with a space after every
      word, ends with one correct keystroke per letter and per word and none
      wrong. */
  lemma ExactTypingScores(strs: seq<seq<char>>)
    requires 0 < |strs|
    requires forall i :: 0 <= i < |strs| ==> |strs[i]| > 0
    ensures var t := TypeText(New(strs), strs);
      && t.stats.correct == TotalLetters(strs) + |strs|
      && t.stats.wrong == 0
  {
    var t := New(strs);
    TypeTextExact(t, strs);
  }
}

=== FILE: stats.dfy ===
/** Keystroke counters of one typing test and the figures derived from them
    (internal/stats/stats.go). */
module Stats {

  /** The two counters. They start at zero and are only ever incremented, so
      they are modelled as naturals. */
  datatype Stats = Stats(correct: nat, wrong: nat)

  /** Number of keystrokes recorded, of either kind. */
  function Total(s: Stats): nat
  {
    s.correct + s.wrong
  }

  /** The counters of a test that has not seen a keystroke yet. */
  function New(): (s: Stats)
    ensures Total(s) == 0
  {
    Stats(0, 0)
  }

  /** Records one correct keystroke. */
  function AddCorrect(s: Stats): (r: Stats)
    ensures r.correct == s.correct + 1 && r.wrong == s.wrong
    ensures Total(r) == Total(s) + 1
  {
    s.(correct := s.correct + 1)
  }

  /** Records one wrong keystroke. */
  function AddWrong(s: Stats): (r: Stats)
    ensures r.wrong == s.wrong + 1 && r.correct == s.correct
    ensures Total(r) == Total(s) + 1
  {
    s.(wrong := s.wrong + 1)
  }

  /** Share of correct keystrokes; zero while nothing correct was typed. */
  function Accuracy(s: Stats): (a: real)
    ensures s.correct == 0 ==> a == 0.0
    ensures s.correct > 0 ==> 0.0 < a <= 1.0
    ensures s.correct > 0 ==> a * Total(s) as real == s.correct as real
  {
    if s.correct <= 0 then 0.0 else s.correct as real / Total(s) as real
  }

  /** Accuracy is exactly one when, and only when, something correct and
      nothing wrong was typed. */
  lemma AccuracyOneIffNoWrong(s: Stats)
    ensures Accuracy(s) == 1.0 <==> s.correct > 0 && s.wrong == 0
  {
    if s.correct > 0 && Accuracy(s) == 1.0 {
      assert 1.0 * Total(s) as real == s.correct as real;
    }
  }

  /** Raw speed: all keystrokes, five per word, per elapsed minute. */
  function WPMRaw(s: Stats, minutes: real): (r: real)
    ensures minutes <= 0.0 ==> r == 0.0
    ensures minutes > 0.0 ==> 0.0 <= r && r * 5.0 * minutes == Total(s) as real
  {
    if minutes <= 0.0 then 0.0 else Total(s) as real / 5.0 / minutes
  }

  /** Net speed: correct keystrokes only, five per word, per elapsed minute. */
  function WPM(s: Stats, minutes: real): (r: real)
    ensures minutes <= 0.0 ==> r == 0.0
    ensures minutes > 0.0 ==> 0.0 <= r && r * 5.0 * minutes == s.correct as real
  {
    if minutes <= 0.0 then 0.0 else s.correct as real / 5.0 / minutes
  }

  /** Net speed never exceeds raw speed. */
  lemma WPMAtMostRaw(s: Stats, minutes: real)
    ensures 0.0 <= WPM(s, minutes) <= WPMRaw(s, minutes)
  {
    if minutes > 0.0 {
      var n, r := WPM(s, minutes), WPMRaw(s, minutes);
      var m5 := 5.0 * minutes;
      assert (r - n) * m5 == s.wrong as real;
      PositiveFactor(r - n, m5);
    }
  }

  /** A product with a positive factor is non-negative only when the other
      factor is. */
  lemma PositiveFactor(x: real, m: real)
    requires 0.0 < m && 0.0 <= x * m
    ensures 0.0 <= x
  {
  }

  /** Net speed is raw speed scaled by accuracy. */
  lemma WPMIsRawTimesAccuracy(s: Stats, minutes: real)
    ensures WPM(s, minutes) == WPMRaw(s, minutes) * Accuracy(s)
  {
    if minutes > 0.0 && s.correct > 0 {
      var r, a := WPMRaw(s, minutes), Accuracy(s);
      var m5 := 5.0 * minutes;
      calc {
        r * a * m5 * Total(s) as real;
        (r * m5) * (a * Total(s) as real);
        Total(s) as real * s.correct as real;
      }
      assert WPM(s, minutes) * m5 * Total(s) as real == s.correct as real * Total(s) as real;
    }
  }
}

=== FILE: test.dfy ===
/** The typing-test state machine: the words of the test, the index of the
    active one and the keystroke counters (internal/typetest/test.go). */
module TypeTest {

  import opened Words
  import Wrappers
  import Stats

  datatype Test = Test(words: seq<Word>, current: nat, stats: Stats.Stats)

  /** A test that is under way: at least one word, the active index inside
      the list, and every word in the shape `Words.Valid` describes. */
  predicate Valid(t: Test)
  {
    && 0 < |t.words|
    && t.current < |t.words|
    && forall i :: 0 <= i < |t.words| ==> Words.Valid(t.words[i])
  }

  /** Every word of the test is tidy (see `Words.Tidy`). */
  predicate AllTidy(t: Test)
  {
    forall i :: 0 <= i < |t.words| ==> Tidy(t.words[i])
  }

  /** No word holds anything at or after its cursor (see `Words.ClearAhead`). */
  predicate AllClear(t: Test)
  {
    forall i :: 0 <= i < |t.words| ==> ClearAhead(t.words[i])
  }

  /** The word keystrokes currently go to. */
  function Active(t: Test): Word
    requires t.current < |t.words|
  {
    t.words[t.current]
  }

  /** Whether the word's buffer is full and already at the growth cap, so that
      a further keystroke cannot be stored. */
  predicate AtCap(w: Word)
  {
    w.cursor >= |w.input| && |w.input| >= MaxGrowth * |w.letters|
  }

  /** The words built from the given non-empty targets, in order. */
  function NewWords(strs: seq<seq<char>>): (ws: seq<Word>)
    requires forall i :: 0 <= i < |strs| ==> |strs[i]| > 0
    ensures |ws| == |strs|
    ensures forall i :: 0 <= i < |strs| ==> NewWord(strs[i]) == Wrappers.Some(ws[i])
  {
    seq(|strs|, i requires 0 <= i < |strs| => NewWord(strs[i]).value)
  }

  /** A test over the given target words, every one of which is non-empty
      (the word source never yields an empty one). */
  function New(strs: seq<seq<char>>): (t: Test)
    requires forall i :: 0 <= i < |strs| ==> |strs[i]| > 0
    ensures |t.words| == |strs| && t.current == 0
    ensures t.stats.correct == 0 && t.stats.wrong == 0
    ensures forall i :: 0 <= i < |strs| ==> NewWord(strs[i]) == Wrappers.Some(t.words[i])
    ensures forall i :: 0 <= i < |strs| ==> t.words[i].letters == strs[i] && t.words[i].cursor == 0
    ensures |strs| > 0 ==> Valid(t)
    ensures AllTidy(t) && AllClear(t)
  {
    Test(NewWords(strs), 0, Stats.Stats(0, 0))
  }

  /** Types `r` into the active word. A keystroke that cannot be stored counts
      as wrong and changes nothing else; otherwise the buffer grows by one
      target length when it is full, `r` is stored at the cursor, the cursor
      advances, and the keystroke counts as correct exactly when it matches
      the target letter under the cursor. */
  function Enter(t: Test, r: char): (t': Test)
    requires Valid(t)
    ensures Valid(t')
    ensures Stats.Total(t'.stats) == Stats.Total(t.stats) + 1
    ensures t'.current == t.current && |t'.words| == |t.words|
    ensures forall i :: 0 <= i < |t.words| && i != t.current ==> t'.words[i] == t.words[i]
    ensures AtCap(Active(t)) ==> t'.words == t.words && t'.stats == Stats.AddWrong(t.stats)
    ensures !AtCap(Active(t)) ==>
      var w, w' := Active(t), Active(t');
      && w'.letters == w.letters
      && w'.cursor == w.cursor + 1
      && |w'.input| == (if w.cursor < |w.input| then |w.input| else |w.input| + |w.letters|)
      && w'.input[w.cursor] == r
      && (forall j :: 0 <= j < |w'.input| && j != w.cursor ==>
            w'.input[j] == if j < |w.input| then w.input[j] else Empty)
      && t'.stats == if w.cursor < |w.letters| && r == w.letters[w.cursor]
                     then Stats.AddCorrect(t.stats) else Stats.AddWrong(t.stats)
  {
    var w := Active(t);
    if AtCap(w) then
      t.(stats := Stats.AddWrong(t.stats))
    else
      var input := if w.cursor >= |w.input| then w.input + Zeros(|w.letters|) else w.input;
      assert w.cursor >= |w.input| ==> |input| % |w.letters| == 0 && |input| <= MaxGrowth * |w.letters| by {
        if w.cursor >= |w.input| {
          GrowthStaysInShape(|w.input|, |w.letters|);
        }
      }
      var stats :=
        if w.cursor < |w.letters| && r == w.letters[w.cursor] then Stats.AddCorrect(t.stats)
        else Stats.AddWrong(t.stats);
      var w' := Word(w.letters, input[w.cursor := r], w.cursor + 1);
      Test(t.words[t.current := w'], t.current, stats)
  }

  /** Confirms the active word with a space. It counts as correct when the
      cursor has reached the end of the target and as wrong otherwise; on the
      last word it signals the end of the test and stays there, otherwise the
      next word becomes active. No word changes. */
  function Space(t: Test): (r: (Test, bool))
    requires Valid(t)
    ensures Valid(r.0) && r.0.words == t.words
    ensures r.1 <==> t.current == |t.words| - 1
    ensures r.0.current == if r.1 then t.current else t.current + 1
    ensures Active(t).cursor >= |Active(t).letters| ==> r.0.stats == Stats.AddCorrect(t.stats)
    ensures Active(t).cursor < |Active(t).letters| ==> r.0.stats == Stats.AddWrong(t.stats)
  {
    var w := Active(t);
    var stats :=
      if w.cursor >= |w.letters| then Stats.AddCorrect(t.stats) else Stats.AddWrong(t.stats);
    if t.current >= |t.words| - 1 then (t.(stats := stats), true)
    else (Test(t.words, t.current + 1, stats), false)
  }

  /** The cursor of a word whose buffer is exhausted is pulled back to the
      effective length before a deletion. */
  function Clamp(w: Word): (c: Word)
    ensures c.letters == w.letters && c.input == w.input
    ensures w.cursor < |w.input| ==> c.cursor == w.cursor
    ensures |w.letters| <= |w.input| <= w.cursor ==>
      |w.letters| <= c.cursor <= w.cursor && forall j :: c.cursor <= j < |w.input| ==> w.input[j] == Empty
    ensures |w.letters| <= |w.input| <= w.cursor && c.cursor > |w.letters| ==>
      c.cursor <= |w.input| && w.input[c.cursor - 1] != Empty
  {
    LenSpec(w);
    if w.cursor >= |w.input| then w.(cursor := Len(w)) else w
  }

  /** Backspace. After the clamp, a cursor at the start of the word moves the
      test to the previous word, if there is one, and leaves every word as
      it was; otherwise the slot before the cursor is emptied and the cursor
      steps back onto it. The counters never change. */
  function Delete(t: Test): (t': Test)
    requires Valid(t)
    ensures Valid(t') && t'.stats == t.stats && |t'.words| == |t.words|
    ensures forall i :: 0 <= i < |t.words| && i != t.current ==> t'.words[i] == t.words[i]
    ensures Clamp(Active(t)).cursor == 0 ==>
      t'.words == t.words && t'.current == (if t.current > 0 then t.current - 1 else 0)
    ensures Clamp(Active(t)).cursor > 0 ==>
      var w := Clamp(Active(t));
      && t'.current == t.current
      && Active(t').letters == w.letters
      && Active(t').cursor == w.cursor - 1
      && Active(t').input == w.input[w.cursor - 1 := Empty]
  {
    var w := Clamp(Active(t));
    if w.cursor == 0 then
      var words := t.words[t.current := w];
      assert words == t.words;
      t.(words := words, current := if t.current > 0 then t.current - 1 else t.current)
    else
      var w' := w.(cursor := w.cursor - 1, input := w.input[w.cursor - 1 := Empty]);
      t.(words := t.words[t.current := w'])
  }

  /** Clamping a tidy word in a valid state changes nothing. */
  lemma ClampKeepsTidyWord(w: Word)
    requires Words.Valid(w) && Tidy(w)
    ensures Clamp(w) == w
  {
    TidyLen(w);
  }

  /** Typing a non-empty character keeps every word tidy. */
  lemma EnterKeepsTidy(t: Test, r: char)
    requires Valid(t) && AllTidy(t) && r != Empty
    ensures AllTidy(Enter(t, r))
  {
    var t' := Enter(t, r);
    if !AtCap(Active(t)) {
      var w, w' := Active(t), Active(t');
      forall j | w'.cursor <= j < |w'.input|
        ensures w'.input[j] == Empty
      {
        if j < |w.input| {
          assert w.input[j] == Empty;
        }
      }
      assert Tidy(w');
    }
  }

  /** A space keeps every word tidy. */
  lemma SpaceKeepsTidy(t: Test)
    requires Valid(t) && AllTidy(t)
    ensures AllTidy(Space(t).0)
  {
  }

  /** A backspace keeps every word tidy. */
  lemma DeleteKeepsTidy(t: Test)
    requires Valid(t) && AllTidy(t)
    ensures AllTidy(Delete(t))
  {
    ClampKeepsTidyWord(Active(t));
  }

  /** Typing any character, the empty one included, keeps every word clear
      ahead of its cursor. */
  lemma EnterKeepsClear(t: Test, r: char)
    requires Valid(t) && AllClear(t)
    ensures AllClear(Enter(t, r))
  {
    var t' := Enter(t, r);
    if !AtCap(Active(t)) {
      var w, w' := Active(t), Active(t');
      forall j | w'.cursor <= j < |w'.input|
        ensures w'.input[j] == Empty
      {
        if j < |w.input| {
          assert w.input[j] == Empty;
        }
      }
      assert ClearAhead(w');
    }
  }

  /** A space keeps every word clear ahead of its cursor. */
  lemma SpaceKeepsClear(t: Test)
    requires Valid(t) && AllClear(t)
    ensures AllClear(Space(t).0)
  {
  }

  /** A backspace keeps every word clear ahead of its cursor: the clamp only
      pulls the cursor back to the effective length, beyond which every slot
      is untyped. */
  lemma DeleteKeepsClear(t: Test)
    requires Valid(t) && AllClear(t)
    ensures AllClear(Delete(t))
  {
    var w := Active(t);
    LenSpec(w);
    assert ClearAhead(Clamp(w));
    var t' := Delete(t);
    forall i | 0 <= i < |t'.words|
      ensures ClearAhead(t'.words[i])
    {
      if i != t.current {
        assert t'.words[i] == t.words[i];
      }
    }
  }

  /** On a word with nothing stored at or after the cursor, typing a
      non-empty character that can be stored and then deleting it returns
      the active word to its cursor and its display; the active index is
      back where it was and only the keystroke is counted. */
  lemma EnterThenDeleteRestores(t: Test, r: char)
    requires Valid(t) && ClearAhead(Active(t)) && r != Empty && !AtCap(Active(t))
    ensures var t2 := Delete(Enter(t, r));
      && t2.current == t.current
      && Active(t2).cursor == Active(t).cursor
      && Runes(Active(t2)) == Runes(Active(t))
      && Stats.Total(t2.stats) == Stats.Total(t.stats) + 1
      && forall i :: 0 <= i < |t.words| && i != t.current ==> t2.words[i] == t.words[i]
  {
    var w := Active(t);
    var t1 := Enter(t, r);
    var w1 := Active(t1);
    var grown := if w.cursor < |w.input| then w.input else w.input + Zeros(|w.letters|);
    assert w1.input == grown[w.cursor := r];
    assert Clamp(w1) == w1 by {
      if w1.cursor >= |w1.input| {
        LenSpec(w1);
        assert w1.input[|w1.input| - 1] == r;
      }
    }
    var t2 := Delete(t1);
    var w2 := Active(t2);
    assert grown[w.cursor] == Empty;
    assert w2.input == grown;
    var wg := w.(input := grown);
    if w.cursor >= |w.input| {
      LenIgnoresAppendedZeros(w, |w.letters|);
    }
    assert w2 == wg;
    assert Len(wg) == Len(w);
    RunesDependOnVisibleSlots(wg, w);
  }

  /** The restoring round trip needs a non-empty character: on the word "a"
      typed correctly, typing the empty character into the fresh overflow
      slot and deleting it erases the correct letter instead, because the
      clamp pulls the cursor back over the trailing empty slot. */
  lemma EmptyRuneSkipsBack()
    ensures var t1 := Enter(New(["a"]), 'a');
      var t3 := Delete(Enter(t1, Empty));
      && Active(t1).cursor == 1 && Active(t1).input == ['a']
      && Active(t3).cursor == 0 && Active(t3).input == [Empty, Empty]
  {
    var t0 := New(["a"]);
    assert NewWord("a") == Wrappers.Some(t0.words[0]);
    var t1 := Enter(t0, 'a');
    var t2 := Enter(t1, Empty);
    assert Active(t2).input == ['a', Empty] && Active(t2).cursor == 2;
    assert Len(Active(t2)) == 1;
  }
}

=== FILE: viewport.dfy ===
/** The two-line viewport of a typing test: the text around the cursor, kept
    at a fixed column, and an annotation line under it
    (internal/typetest/test.go, `String`). */
module Viewport {

  import opened Words
  import opened TypeTest

  /** How a cell is drawn: unstyled, or in the style of a letter status. */
  datatype Style = Plain | Styled(status: LetterStatus)

  /** One column of output. */
  datatype Cell = Cell(glyph: char, style: Style)

  /** Padding and word separators. */
  const Blank: Cell := Cell(' ', Plain)

  /** The cursor marker of the annotation line. */
  const Caret: Cell := Cell('^', Styled(Cursor))

  function Blanks(n: nat): (b: seq<Cell>)
    ensures |b| == n
    ensures forall i :: 0 <= i < n ==> b[i] == Blank
  {
    seq(n, _ => Blank)
  }

  function Min(a: int, b: int): int
  {
    if a <= b then a else b
  }

  /** The annotation drawn under a cell: a tilde under a wrong letter, a hash
      under an overflow letter, a backtick under a letter not yet typed and
      a blank under anything else. */
  function Annotate(c: Cell): (a: Cell)
    ensures a.glyph != Caret.glyph
    ensures c.style == Styled(Wrong) ==> a == Cell('~', c.style)
    ensures c.style == Styled(Overflow) ==> a == Cell('#', c.style)
    ensures c.style == Styled(None) ==> a == Cell('`', c.style)
    ensures c.style == Plain || c.style == Styled(Correct) ==> a == Blank
  {
    match c.style
    case Styled(Wrong) => Cell('~', c.style)
    case Styled(Overflow) => Cell('#', c.style)
    case Styled(None) => Cell('`', c.style)
    case _ => Blank
  }

  /** Every word's buffer covers its target, as `Runes` needs. */
  ghost predicate Shaped(ws: seq<Word>)
  {
    forall i :: 0 <= i < |ws| ==> |ws[i].letters| <= |ws[i].input|
  }

  /** What rendering needs of a test: an active word inside a non-empty word
      list, and buffers that cover their targets. Every valid test has it. */
  ghost predicate Renderable(t: Test)
  {
    0 < |t.words| && t.current < |t.words| && Shaped(t.words)
  }

  lemma ValidRenderable(t: Test)
    requires TypeTest.Valid(t)
    ensures Renderable(t)
  {
    forall i | 0 <= i < |t.words|
      ensures |t.words[i].letters| <= |t.words[i].input|
    {
      assert Words.Valid(t.words[i]);
    }
  }

  /** The classified letters of one word as cells. */
  ghost function WordCells(w: Word): (c: seq<Cell>)
    requires |w.letters| <= |w.input|
    ensures |c| == Len(w)
  {
    var r := Runes(w);
    seq(Len(w), i requires 0 <= i < Len(w) => Cell(r.0[i], Styled(r.1[i])))
  }

  /** Column of the first letter of word `k` in the whole text: every earlier
      word takes its effective length plus one separator. */
  ghost function Prefix(ws: seq<Word>, k: nat): nat
    requires k <= |ws|
  {
    if k == 0 then 0 else Prefix(ws, k - 1) + Len(ws[k - 1]) + 1
  }

  /** The classified text from letter `l` of word `k` on: the rest of that
      word, then every later word preceded by a separator. */
  ghost function AllFrom(ws: seq<Word>, k: nat, l: nat): seq<Cell>
    requires k < |ws| && Shaped(ws)
    decreases |ws| - k
  {
    var cells := WordCells(ws[k]);
    cells[Min(l, |cells|)..] + (if k + 1 < |ws| then [Blank] + AllFrom(ws, k + 1, 0) else [])
  }

  /** The whole classified text of the test. */
  ghost function Text(ws: seq<Word>): seq<Cell>
    requires 0 < |ws| && Shaped(ws)
  {
    AllFrom(ws, 0, 0)
  }

  /** Characters drawn in the not-yet-typed style. */
  ghost function NoneCells(g: seq<char>): (c: seq<Cell>)
    ensures |c| == |g|
  {
    seq(|g|, i requires 0 <= i < |g| => Cell(g[i], Styled(None)))
  }

  /** The words after word `k`, each preceded by a separator and drawn from
      its target letters. */
  ghost function Upcoming(ws: seq<Word>, k: nat): seq<Cell>
    requires k < |ws|
    decreases |ws| - k
  {
    if k + 1 < |ws| then [Blank] + NoneCells(ws[k + 1].letters) + Upcoming(ws, k + 1) else []
  }

  /** What follows position `l` of the characters `g` of word `k`. */
  ghost function FutureFrom(ws: seq<Word>, k: nat, l: nat, g: seq<char>): seq<Cell>
    requires k < |ws|
  {
    NoneCells(g[Min(l, |g|)..]) + Upcoming(ws, k)
  }

  /** Column of the cursor in the whole text. */
  ghost function CursorIndex(t: Test): nat
    requires Renderable(t)
  {
    Prefix(t.words, t.current) + Active(t).cursor
  }

  /** The text from the cursor on: the active word's remaining characters,
      then the later words as targets, all in the not-yet-typed style. */
  ghost function Future(t: Test): seq<Cell>
    requires Renderable(t)
  {
    FutureFrom(t.words, t.current, Active(t).cursor, Runes(Active(t)).0)
  }

  /** The classified text before the cursor. */
  ghost function Past(t: Test): seq<Cell>
    requires Renderable(t) && Active(t).cursor <= Len(Active(t))
  {
    TextSuffix(t.words, t.current, Active(t).cursor);
    Text(t.words)[..CursorIndex(t)]
  }

  /** The last `n` cells of `past`, padded on the left with blanks when
      there are fewer. */
  ghost function Window(past: seq<Cell>, n: nat): (v: seq<Cell>)
    ensures |v| == n
  {
    if |past| >= n then past[|past| - n..] else Blanks(n - |past|) + past
  }

  /** At most the first `n` elements of `s`. */
  ghost function Take<T>(s: seq<T>, n: int): (p: seq<T>)
    ensures |p| == if n <= 0 then 0 else Min(n, |s|)
    ensures p <= s
  {
    if n >= |s| then s else if n <= 0 then [] else s[..n]
  }

  /** A prefix of `a + b` that is `n` long, or that is all of it, is what
      `Take` keeps. */
  lemma TakeOfSplit<T>(a: seq<T>, b: seq<T>, n: nat)
    requires |a| <= n && (|a| == n || b == [])
    ensures Take(a + b, n) == a
  {
    if |a| == n {
      assert (a + b)[..n] == a;
    }
  }

  /** Backward walk from word `word`: while the offset is still positive and
      an earlier word exists, step onto it and subtract its effective length
      and one separator. */
  function WalkBack(ws: seq<Word>, word: nat, offset: int): (r: (nat, int))
    requires word < |ws|
    ensures r.0 <= word && r.1 <= offset
    ensures r.1 == offset - (Prefix(ws, word) - Prefix(ws, r.0))
    ensures r.0 < word ==> r.1 + Len(ws[r.0]) + 1 > 0
    ensures r.1 > 0 ==> r.0 == 0
    decreases word
  {
    if offset > 0 && word > 0 then WalkBack(ws, word - 1, offset - (Len(ws[word - 1]) + 1))
    else (word, offset)
  }

  /** Where the scan of the viewport starts: a word, a letter inside it and
      the number of blank columns in front. */
  datatype Start = Start(word: nat, letter: nat, lead: nat)

  /** The start of the scan. Column 0 of the viewport shows text position
      `CursorIndex - (width-1)/2`, or lies `lead` blank columns before the
      text when that is negative; the starting letter lies within its word. */
  function ScanStart(t: Test, width: int): (s: Start)
    requires Renderable(t) && width > 0
    ensures s.word <= t.current && s.lead <= (width - 1) / 2
    ensures s.word < t.current ==> s.letter <= Len(t.words[s.word])
    ensures s.word == t.current ==> s.letter <= Active(t).cursor
    ensures s.lead > 0 ==> s.word == 0 && s.letter == 0
    ensures Prefix(t.words, s.word) + s.letter + (width - 1) / 2 == CursorIndex(t) + s.lead
  {
    var cursorPos := (width - 1) / 2;
    var walk := WalkBack(t.words, t.current, cursorPos - Active(t).cursor);
    if walk.1 < 0 then Start(walk.0, -walk.1, 0) else Start(walk.0, 0, walk.1)
  }

  lemma {:induction false} PrefixMono(ws: seq<Word>, a: nat, b: nat)
    requires a <= b <= |ws|
    ensures Prefix(ws, a) <= Prefix(ws, b)
    decreases b - a
  {
    if a < b {
      PrefixMono(ws, a, b - 1);
    }
  }

  /** A text position names one word and one letter (or its separator). */
  lemma PositionUnique(ws: seq<Word>, k1: nat, l1: nat, k2: nat, l2: nat)
    requires k1 < |ws| && k2 < |ws|
    requires l1 <= Len(ws[k1]) && l2 <= Len(ws[k2])
    requires Prefix(ws, k1) + l1 == Prefix(ws, k2) + l2
    ensures k1 == k2 && l1 == l2
  {
    if k1 < k2 {
      PrefixMono(ws, k1 + 1, k2);
    } else if k2 < k1 {
      PrefixMono(ws, k2 + 1, k1);
    }
  }

  lemma AllFromDrop(ws: seq<Word>, k: nat, l: nat)
    requires k < |ws| && Shaped(ws) && l <= Len(ws[k])
    ensures |AllFrom(ws, k, 0)| == l + |AllFrom(ws, k, l)|
    ensures AllFrom(ws, k, 0)[l..] == AllFrom(ws, k, l)
  {
    var cells := WordCells(ws[k]);
    var rest := if k + 1 < |ws| then [Blank] + AllFrom(ws, k + 1, 0) else [];
    assert AllFrom(ws, k, 0) == cells + rest;
    assert AllFrom(ws, k, l) == cells[l..] + rest;
    assert (cells + rest)[l..] == cells[l..] + rest;
  }

  lemma AllFromLetter(ws: seq<Word>, k: nat, l: nat)
    requires k < |ws| && Shaped(ws) && l < Len(ws[k])
    ensures AllFrom(ws, k, l) == [WordCells(ws[k])[l]] + AllFrom(ws, k, l + 1)
  {
    var cells := WordCells(ws[k]);
    assert cells[l..] == [cells[l]] + cells[l + 1..];
  }

  lemma AllFromSeparator(ws: seq<Word>, k: nat, l: nat)
    requires k + 1 < |ws| && Shaped(ws) && l >= Len(ws[k])
    ensures AllFrom(ws, k, l) == [Blank] + AllFrom(ws, k + 1, 0)
  {
    var cells := WordCells(ws[k]);
    assert cells[Min(l, |cells|)..] == [];
  }

  lemma AllFromEnd(ws: seq<Word>, k: nat, l: nat)
    requires k + 1 == |ws| && Shaped(ws) && l >= Len(ws[k])
    ensures AllFrom(ws, k, l) == []
  {
    var cells := WordCells(ws[k]);
    assert cells[Min(l, |cells|)..] == [];
  }

  /** The text from the start of word `k` plus `l` letters is the suffix of
      the whole text at column `Prefix(k) + l`. */
  lemma {:induction false} TextSuffix(ws: seq<Word>, k: nat, l: nat)
    requires 0 < |ws| && Shaped(ws) && k < |ws| && l <= Len(ws[k])
    ensures Prefix(ws, k) + l <= |Text(ws)|
    ensures Text(ws)[Prefix(ws, k) + l..] == AllFrom(ws, k, l)
    decreases k
  {
    AllFromDrop(ws, k, l);
    if k > 0 {
      var n := Len(ws[k - 1]);
      TextSuffix(ws, k - 1, n);
      AllFromSeparator(ws, k - 1, n);
      var text := Text(ws);
      var p := Prefix(ws, k - 1) + n;
      assert text[p..] == [Blank] + AllFrom(ws, k, 0);
      assert text[p + 1..] == text[p..][1..];
      assert text[Prefix(ws, k)..] == AllFrom(ws, k, 0);
      assert text[Prefix(ws, k) + l..] == text[Prefix(ws, k)..][l..];
    }
  }

  lemma FutureLetter(ws: seq<Word>, k: nat, l: nat, g: seq<char>)
    requires k < |ws| && l < |g|
    ensures FutureFrom(ws, k, l, g) == [Cell(g[l], Styled(None))] + FutureFrom(ws, k, l + 1, g)
  {
    assert NoneCells(g[l..]) == [Cell(g[l], Styled(None))] + NoneCells(g[l + 1..]);
  }

  lemma FutureSeparator(ws: seq<Word>, k: nat, l: nat, g: seq<char>)
    requires k + 1 < |ws| && l >= |g|
    ensures FutureFrom(ws, k, l, g) == [Blank] + FutureFrom(ws, k + 1, 0, ws[k + 1].letters)
  {
    assert NoneCells(g[Min(l, |g|)..]) == [];
    assert ws[k + 1].letters[Min(0, |ws[k + 1].letters|)..] == ws[k + 1].letters;
  }

  lemma FutureEnd(ws: seq<Word>, k: nat, l: nat, g: seq<char>)
    requires k + 1 == |ws| && l >= |g|
    ensures FutureFrom(ws, k, l, g) == []
  {
    assert NoneCells(g[Min(l, |g|)..]) == [];
  }

  /** What the viewport shows at the cursor column: the active word's
      character under the cursor, the separator after a finished word, or
      nothing once the last word is finished. */
  lemma FutureStartsAtCursor(t: Test)
    requires Renderable(t)
    ensures Active(t).cursor < Len(Active(t)) ==>
      0 < |Future(t)| && Future(t)[0] == Cell(Runes(Active(t)).0[Active(t).cursor], Styled(None))
    ensures Active(t).cursor >= Len(Active(t)) && t.current + 1 < |t.words| ==>
      0 < |Future(t)| && Future(t)[0] == Blank
    ensures Active(t).cursor >= Len(Active(t)) && t.current + 1 == |t.words| ==> Future(t) == []
  {
    var g := Runes(Active(t)).0;
    var c := Active(t).cursor;
    if c < |g| {
      FutureLetter(t.words, t.current, c, g);
    } else if t.current + 1 < |t.words| {
      FutureSeparator(t.words, t.current, c, g);
    } else {
      FutureEnd(t.words, t.current, c, g);
    }
  }

  /** The window of the first `g` cells of `text` seen from column `p0 - lead`:
      `lead` blanks (only when the window starts before the text) followed
      by the text from `p0` up to `g`. */
  lemma WindowOfSuffix(text: seq<Cell>, g: nat, p0: nat, lead: nat, cp: nat)
    requires g <= |text| && p0 + cp == g + lead && lead <= cp
    requires lead > 0 ==> p0 == 0
    ensures cp - lead <= |text[p0..]|
    ensures Window(text[..g], cp) == Blanks(lead) + text[p0..][..cp - lead]
  {
    assert text[p0..][..cp - lead] == text[p0..g];
    if lead == 0 {
      assert text[..g][g - cp..] == text[p0..g];
    } else {
      assert text[..g] == text[p0..g];
    }
  }

  /** When the cursor lies within its word, the scan starts at a letter inside
      its word, enough text follows it to fill the columns before the cursor,
      and those columns are the window of the text before the cursor. */
  lemma StartShowsWindow(t: Test, width: int)
    requires Renderable(t) && width > 0 && Active(t).cursor <= Len(Active(t))
    ensures var st, cp := ScanStart(t, width), (width - 1) / 2;
      && st.letter <= Len(t.words[st.word])
      && st.lead <= cp <= st.lead + |AllFrom(t.words, st.word, st.letter)|
      && Window(Past(t), cp) == Blanks(st.lead) + AllFrom(t.words, st.word, st.letter)[..cp - st.lead]
  {
    var st, cp := ScanStart(t, width), (width - 1) / 2;
    TextSuffix(t.words, t.current, Active(t).cursor);
    TextSuffix(t.words, st.word, st.letter);
    var p0 := Prefix(t.words, st.word) + st.letter;
    WindowOfSuffix(Text(t.words), CursorIndex(t), p0, st.lead, cp);
  }

  /** One column of the scan before the cursor, at letter `letter` of word
      `word`: the classified letter when the word still has one, otherwise
      the separator and a move to the start of the next word; `stop` when
      the last word is exhausted. */
  method PastCell(ws: seq<Word>, word: nat, letter: nat)
    returns (stop: bool, c: Cell, word': nat, letter': nat)
    requires word < |ws| && Shaped(ws)
    ensures stop <==> AllFrom(ws, word, letter) == []
    ensures !stop ==> word' < |ws| && AllFrom(ws, word, letter) == [c] + AllFrom(ws, word', letter')
    ensures !stop && letter <= Len(ws[word]) ==>
      letter' <= Len(ws[word']) && Prefix(ws, word') + letter' == Prefix(ws, word) + letter + 1
  {
    var runes := Runes(ws[word]);
    if letter >= |runes.0| {
      if word >= |ws| - 1 {
        AllFromEnd(ws, word, letter);
        return true, Blank, word, letter;
      }
      AllFromSeparator(ws, word, letter);
      return false, Blank, word + 1, 0;
    }
    AllFromLetter(ws, word, letter);
    c := Cell(runes.0[letter], Styled(runes.1[letter]));
    assert c == WordCells(ws[word])[letter];
    return false, c, word, letter + 1;
  }

  /** The columns before the cursor: up to `columns` cells of the classified
      text from letter `letter0` of word `word0`, with the annotation of each
      cell. The scan stops early only when the last word is exhausted. */
  method ScanPast(ws: seq<Word>, word0: nat, letter0: nat, columns: nat)
    returns (cells: seq<Cell>, notes: seq<Cell>, word: nat, letter: nat)
    requires word0 < |ws| && Shaped(ws)
    ensures word < |ws|
    ensures cells == Take(AllFrom(ws, word0, letter0), columns)
    ensures cells + AllFrom(ws, word, letter) == AllFrom(ws, word0, letter0)
    ensures |notes| == |cells|
    ensures forall j :: 0 <= j < |notes| ==> notes[j] == Annotate(cells[j])
    ensures letter0 <= Len(ws[word0]) ==>
      letter <= Len(ws[word]) && Prefix(ws, word) + letter == Prefix(ws, word0) + letter0 + |cells|
  {
    word, letter := word0, letter0;
    cells, notes := [], [];
    ghost var aligned := letter0 <= Len(ws[word0]);
    var i := 0;
    while i < columns
      invariant i <= columns && |cells| == i
      invariant word < |ws|
      invariant |notes| == |cells|
      invariant forall j :: 0 <= j < |notes| ==> notes[j] == Annotate(cells[j])
      invariant cells + AllFrom(ws, word, letter) == AllFrom(ws, word0, letter0)
      invariant aligned ==> letter <= Len(ws[word])
      invariant aligned ==> Prefix(ws, word) + letter == Prefix(ws, word0) + letter0 + |cells|
    {
      var stop, c, nextWord, nextLetter := PastCell(ws, word, letter);
      if stop {
        break;
      }
      assert (cells + [c]) + AllFrom(ws, nextWord, nextLetter) == AllFrom(ws, word0, letter0);
      cells, notes := cells + [c], notes + [Annotate(c)];
      word, letter := nextWord, nextLetter;
      i := i + 1;
    }
    TakeOfSplit(cells, AllFrom(ws, word, letter), columns);
  }

  /** One column of the scan from the cursor on, at letter `letter` of the
      characters `r` of word `word`: the character in the not-yet-typed
      style when one is left, otherwise the separator and a move to the
      target letters of the next word; `stop` when the last word is
      exhausted. */
  method FutureCell(ws: seq<Word>, word: nat, letter: nat, r: seq<char>)
    returns (stop: bool, c: Cell, word': nat, letter': nat, r': seq<char>)
    requires word < |ws|
    ensures stop <==> FutureFrom(ws, word, letter, r) == []
    ensures !stop ==> word' < |ws| && FutureFrom(ws, word, letter, r) == [c] + FutureFrom(ws, word', letter', r')
    ensures c == Blank || c.style == Styled(None)
  {
    if letter >= |r| {
      if word >= |ws| - 1 {
        FutureEnd(ws, word, letter, r);
        return true, Blank, word, letter, r;
      }
      FutureSeparator(ws, word, letter, r);
      return false, Blank, word + 1, 0, ws[word + 1].letters;
    }
    FutureLetter(ws, word, letter, r);
    return false, Cell(r[letter], Styled(None)), word, letter + 1, r;
  }

  /** The columns from the cursor on: up to `columns` cells of what follows
      position `letter0` of the characters `g0` of word `word0`, all drawn in
      the not-yet-typed style. The scan stops early only when the last word
      is exhausted. */
  method ScanFuture(ws: seq<Word>, word0: nat, letter0: nat, g0: seq<char>, columns: nat)
    returns (cells: seq<Cell>)
    requires word0 < |ws|
    ensures cells == Take(FutureFrom(ws, word0, letter0, g0), columns)
    ensures forall j :: 0 <= j < |cells| ==> cells[j] == Blank || cells[j].style == Styled(None)
  {
    var word: nat, letter: nat, r := word0, letter0, g0;
    cells := [];
    var i := 0;
    while i < columns
      invariant i <= columns && |cells| == i
      invariant word < |ws|
      invariant cells + FutureFrom(ws, word, letter, r) == FutureFrom(ws, word0, letter0, g0)
      invariant forall j :: 0 <= j < |cells| ==> cells[j] == Blank || cells[j].style == Styled(None)
    {
      var stop, c, nextWord, nextLetter, nextR := FutureCell(ws, word, letter, r);
      if stop {
        break;
      }
      assert (cells + [c]) + FutureFrom(ws, nextWord, nextLetter, nextR) == FutureFrom(ws, word0, letter0, g0);
      cells := cells + [c];
      word, letter, r := nextWord, nextLetter, nextR;
      i := i + 1;
    }
    TakeOfSplit(cells, FutureFrom(ws, word, letter, r), columns);
  }

  /** The primary line of a viewport `width` columns wide whose cursor lies
      within its word: the `(width-1)/2` columns before the cursor show the
      last cells of the text before it, padded with blanks on the left, and
      the remaining columns show the start of the text still to type. */
  ghost function Layout(t: Test, width: int): (v: seq<Cell>)
    requires Renderable(t) && width > 0 && Active(t).cursor <= Len(Active(t))
  {
    var cursorPos := (width - 1) / 2;
    Window(Past(t), cursorPos) + Take(Future(t), width - cursorPos)
  }

  /** The cursor column of the layout shows the active word's character under
      the cursor, or the separator when the word is finished and another one
      follows; the line never exceeds the width. */
  lemma LayoutAnchor(t: Test, width: int)
    requires Renderable(t) && width > 0 && Active(t).cursor <= Len(Active(t))
    ensures (width - 1) / 2 <= |Layout(t, width)| <= width
    ensures Active(t).cursor < Len(Active(t)) ==>
      (width - 1) / 2 < |Layout(t, width)|
      && Layout(t, width)[(width - 1) / 2] == Cell(Runes(Active(t)).0[Active(t).cursor], Styled(None))
    ensures Active(t).cursor == Len(Active(t)) && t.current + 1 < |t.words| ==>
      (width - 1) / 2 < |Layout(t, width)| && Layout(t, width)[(width - 1) / 2] == Blank
    ensures Active(t).cursor == Len(Active(t)) && t.current + 1 == |t.words| ==>
      |Layout(t, width)| == (width - 1) / 2
  {
    FutureStartsAtCursor(t);
  }

  /** When the cursor lies within its word, the scan before the cursor fills
      every column up to it, shows the window of the text before the cursor
      and stops exactly at the cursor. */
  lemma PastScanEndsAtCursor(t: Test, width: int, start: Start, past: seq<Cell>, word: nat, letter: nat)
    requires Renderable(t) && width > 0 && Active(t).cursor <= Len(Active(t))
    requires word < |t.words|
    requires start == ScanStart(t, width)
    requires past == Take(AllFrom(t.words, start.word, start.letter), (width - 1) / 2 - start.lead)
    requires start.letter <= Len(t.words[start.word]) ==>
      letter <= Len(t.words[word])
      && Prefix(t.words, word) + letter == Prefix(t.words, start.word) + start.letter + |past|
    ensures start.lead + |past| == (width - 1) / 2
    ensures Blanks(start.lead) + past == Window(Past(t), (width - 1) / 2)
    ensures word == t.current && letter == Active(t).cursor
  {
    StartShowsWindow(t, width);
    PositionUnique(t.words, word, letter, t.current, Active(t).cursor);
  }

  /** When the cursor lies within its word, the padding, the scan before the
      cursor and the scan from the cursor on make up the layout. */
  lemma ScansMakeLayout(t: Test, width: int, start: Start, past: seq<Cell>, word: nat, letter: nat,
                        future: seq<Cell>)
    requires Renderable(t) && width > 0 && Active(t).cursor <= Len(Active(t))
    requires word < |t.words|
    requires start == ScanStart(t, width)
    requires past == Take(AllFrom(t.words, start.word, start.letter), (width - 1) / 2 - start.lead)
    requires start.letter <= Len(t.words[start.word]) ==>
      letter <= Len(t.words[word])
      && Prefix(t.words, word) + letter == Prefix(t.words, start.word) + start.letter + |past|
    requires future == Take(FutureFrom(t.words, word, letter, Runes(t.words[word]).0), width - (width - 1) / 2)
    ensures start.lead + |past| == (width - 1) / 2
    ensures Blanks(start.lead) + past + future == Layout(t, width)
  {
    PastScanEndsAtCursor(t, width, start, past, word, letter);
  }

  /** Joins the pieces of the viewport: the padding and the scan before the
      cursor, annotated cell by cell in the second line, which then ends with
      the caret; the scan from the cursor on continues the first line only. */
  function Lines(lead: seq<Cell>, past: seq<Cell>, notes: seq<Cell>, future: seq<Cell>)
    : (lines: (seq<Cell>, seq<Cell>))
    requires forall j :: 0 <= j < |lead| ==> Annotate(lead[j]) == lead[j]
    requires |notes| == |past|
    requires forall j :: 0 <= j < |notes| ==> notes[j] == Annotate(past[j])
    requires forall j :: 0 <= j < |future| ==> future[j] == Blank || future[j].style == Styled(None)
    ensures lines.0 == lead + past + future
    ensures |lines.1| == |lead| + |past| + 1 && lines.1[|lines.1| - 1] == Caret
    ensures forall j :: 0 <= j < |lines.1| - 1 ==> lines.1[j] == Annotate(lines.0[j])
    ensures forall j :: |lines.1| - 1 <= j < |lines.0| ==>
      lines.0[j] == Blank || lines.0[j].style == Styled(None)
  {
    (lead + past + future, lead + notes + [Caret])
  }

  /** The scans of a viewport `width` columns wide: the blank padding, the
      cells before the cursor with their annotations, and the cells from the
      cursor on. When the cursor lies within its word the padding and the
      cells before the cursor fill exactly the columns up to it and the
      three pieces make up the layout. */
  method Scan(t: Test, width: int) returns (lead: seq<Cell>, past: seq<Cell>, notes: seq<Cell>, future: seq<Cell>)
    requires Renderable(t) && width > 0
    ensures |lead| + |past| <= (width - 1) / 2 && |future| <= width - (width - 1) / 2
    ensures forall j :: 0 <= j < |lead| ==> Annotate(lead[j]) == lead[j]
    ensures |notes| == |past| && forall j :: 0 <= j < |notes| ==> notes[j] == Annotate(past[j])
    ensures forall j :: 0 <= j < |future| ==> future[j] == Blank || future[j].style == Styled(None)
    ensures Active(t).cursor <= Len(Active(t)) ==>
      |lead| + |past| == (width - 1) / 2 && lead + past + future == Layout(t, width)
  {
    var cursorPos := (width - 1) / 2;
    var start := ScanStart(t, width);
    lead := Blanks(start.lead);
    assert forall j :: 0 <= j < |lead| ==> Annotate(lead[j]) == lead[j];
    var word, letter;
    past, notes, word, letter := ScanPast(t.words, start.word, start.letter, cursorPos - start.lead);
    future := ScanFuture(t.words, word, letter, Runes(t.words[word]).0, width - cursorPos);
    if Active(t).cursor <= Len(Active(t)) {
      ScansMakeLayout(t, width, start, past, word, letter, future);
    }
  }

  /** Renders the viewport of `width` columns: the primary line and the
      annotation line under it. The cursor is held at column `(width-1)/2`;
      the columns before it show the classified text that precedes the
      cursor (padded with blanks when there is not enough) and are annotated
      in the second line, which ends with the caret under the cursor; the
      columns from the cursor on show the text still to type, undecorated. */
  method Render(t: Test, width: int) returns (primary: seq<Cell>, aux: seq<Cell>)
    requires Renderable(t)
    ensures width <= 0 ==> primary == [] && aux == []
    ensures width > 0 ==> |primary| <= width && 1 <= |aux| <= (width - 1) / 2 + 1
    ensures width > 0 ==> |aux| - 1 <= |primary| && aux[|aux| - 1] == Caret
    ensures width > 0 ==> forall j :: 0 <= j < |aux| - 1 ==> aux[j] == Annotate(primary[j])
    ensures width > 0 ==> forall j :: |aux| - 1 <= j < |primary| ==>
      primary[j] == Blank || primary[j].style == Styled(None)
    ensures width > 0 && Active(t).cursor <= Len(Active(t)) ==>
      |aux| == (width - 1) / 2 + 1 && primary == Layout(t, width)
  {
    if width <= 0 {
      return [], [];
    }
    var lead, past, notes, future := Scan(t, width);
    var lines := Lines(lead, past, notes, future);
    primary, aux := lines.0, lines.1;
  }
}

=== FILE: words.dfy ===
/** One target word of a typing test together with what the user typed for
    it (internal/typetest/word.go). */
module Words {

  import Wrappers

  /** Classification of one displayed letter. `Cursor` only styles the caret
      of the annotation line; no letter is ever classified as `Cursor`. */
  datatype LetterStatus = None | Correct | Wrong | Overflow | Cursor

  /** The sentinel stored in an input slot that has not been typed into. */
  const Empty: char := 0 as char

  /** The input buffer never grows beyond this many times the word's length. */
  const MaxGrowth: nat := 4

  /** A word: its target letters, the input buffer (one slot per letter plus
      any overflow room grown so far) and the index of the next slot to type. */
  datatype Word = Word(letters: seq<char>, input: seq<char>, cursor: nat)

  /** The shape every word of a running test keeps: a non-empty target, a
      buffer that is a whole multiple of the target's length between one and
      `MaxGrowth` times it, and a cursor inside the buffer or just past it. */
  predicate Valid(w: Word)
  {
    && 0 < |w.letters| <= |w.input| <= MaxGrowth * |w.letters|
    && |w.input| % |w.letters| == 0
    && w.cursor <= |w.input|
  }

  /** `n` untyped slots. */
  function Zeros(n: nat): (z: seq<char>)
    ensures |z| == n
    ensures forall i :: 0 <= i < n ==> z[i] == Empty
  {
    seq(n, _ => Empty)
  }

  /** A fresh word for the target `s`; there is none for the empty string. */
  function NewWord(s: seq<char>): (r: Wrappers.Option<Word>)
    ensures r.None? <==> |s| == 0
    ensures r.Some? ==> r.value.letters == s && r.value.cursor == 0
    ensures r.Some? ==> |r.value.input| == |s|
    ensures r.Some? ==> forall i :: 0 <= i < |s| ==> r.value.input[i] == Empty
    ensures r.Some? ==> Valid(r.value) && Tidy(r.value)
  {
    if |s| <= 0 then Wrappers.None else Wrappers.Some(Word(s, Zeros(|s|), 0))
  }

  /** Scans the slots `[lo, hi)` of `input` from the top down and returns one
      past the highest typed one, or `lo` when they are all untyped. */
  function TrimmedEnd(input: seq<char>, lo: nat, hi: nat): (n: nat)
    requires hi <= |input|
    ensures lo <= n && (n <= hi || n == lo)
    ensures n > lo ==> input[n - 1] != Empty
    ensures forall j :: n <= j < hi ==> input[j] == Empty
    decreases hi
  {
    if hi <= lo then lo
    else if input[hi - 1] != Empty then hi
    else TrimmedEnd(input, lo, hi - 1)
  }

  /** Effective length: the target's length, extended over overflow slots up
      to the last one that holds a typed character. */
  function Len(w: Word): (n: nat)
    ensures |w.letters| <= n
    ensures |w.letters| <= |w.input| ==> n <= |w.input|
  {
    TrimmedEnd(w.input, |w.letters|, |w.input|)
  }

  /** The effective length is one past the last typed overflow slot: every
      slot from it on is untyped, and it equals the target's length exactly
      when no overflow slot holds a typed character. */
  lemma LenSpec(w: Word)
    ensures Len(w) > |w.letters| ==> Len(w) <= |w.input| && w.input[Len(w) - 1] != Empty
    ensures forall j :: Len(w) <= j < |w.input| ==> w.input[j] == Empty
    ensures Len(w) == |w.letters| <==> forall j :: |w.letters| <= j < |w.input| ==> w.input[j] == Empty
  {
    var n := Len(w);
    if n > |w.letters| {
      assert w.input[n - 1] != Empty;
    }
  }

  /** Two candidate effective lengths that both satisfy the characterisation
      of `Len` are the same. */
  lemma LenUnique(input: seq<char>, lo: nat, n1: nat, n2: nat)
    requires lo <= n1 <= |input| && lo <= n2 <= |input|
    requires n1 > lo ==> input[n1 - 1] != Empty
    requires n2 > lo ==> input[n2 - 1] != Empty
    requires forall j :: n1 <= j < |input| ==> input[j] == Empty
    requires forall j :: n2 <= j < |input| ==> input[j] == Empty
    ensures n1 == n2
  {
  }

  /** Appending untyped slots to a buffer does not change the effective length. */
  lemma LenIgnoresAppendedZeros(w: Word, k: nat)
    requires |w.letters| <= |w.input|
    ensures Len(w.(input := w.input + Zeros(k))) == Len(w)
  {
    var w' := w.(input := w.input + Zeros(k));
    var n, n' := Len(w), Len(w');
    LenSpec(w);
    LenSpec(w');
    forall j | n <= j < |w'.input|
      ensures w'.input[j] == Empty
    {
      if j < |w.input| {
        assert w'.input[j] == w.input[j];
      }
    }
    if n > |w.letters| {
      assert w'.input[n - 1] == w.input[n - 1];
    }
    LenUnique(w'.input, |w.letters|, n, n');
  }

  /** What position `i` displays and how it is classified: a slot inside the
      target compares the typed character with the target letter (the empty
      sentinel and a blank both count as not typed); a slot beyond it is
      overflow. */
  function Classify(w: Word, i: nat): (char, LetterStatus)
    requires i < |w.input|
  {
    if i < |w.letters| then
      var typed := w.input[i];
      if typed == w.letters[i] then (typed, Correct)
      else if typed == Empty || typed == ' ' then (w.letters[i], None)
      else (typed, Wrong)
    else (w.input[i], Overflow)
  }

  /** The characters to display for the word and their classification, one
      pair per position of the effective length. */
  function Runes(w: Word): (r: (seq<char>, seq<LetterStatus>))
    requires |w.letters| <= |w.input|
    ensures |r.0| == Len(w) && |r.1| == Len(w)
  {
    var n := Len(w);
    (seq(n, i requires 0 <= i < n => Classify(w, i).0),
     seq(n, i requires 0 <= i < n => Classify(w, i).1))
  }

  /** Classification of each displayed position. Inside the target a typed
      character equal to the letter is correct and shown as typed; otherwise
      an untyped slot (the sentinel or a blank) shows the target letter, and
      anything else is wrong and shown as typed. Every position beyond the
      target is overflow and shows what was typed there. No position is
      classified as the cursor. */
  lemma RunesSpec(w: Word)
    requires |w.letters| <= |w.input|
    ensures var r := Runes(w);
      && (forall i :: 0 <= i < |w.letters| ==>
            (r.1[i] == Correct <==> w.input[i] == w.letters[i]))
      && (forall i :: 0 <= i < |w.letters| && w.input[i] == w.letters[i] ==>
            r.0[i] == w.input[i])
      && (forall i :: 0 <= i < |w.letters| && w.input[i] != w.letters[i] ==>
            (r.1[i] == None <==> w.input[i] == Empty || w.input[i] == ' '))
      && (forall i :: 0 <= i < |w.letters| && r.1[i] == None ==> r.0[i] == w.letters[i])
      && (forall i :: 0 <= i < |w.letters| && r.1[i] == Wrong ==> r.0[i] == w.input[i])
      && (forall i :: 0 <= i < |w.letters| && w.input[i] !in {w.letters[i], Empty, ' '} ==>
            r.1[i] == Wrong && r.0[i] == w.input[i])
      && (forall i :: |w.letters| <= i < Len(w) ==> r.1[i] == Overflow && r.0[i] == w.input[i])
      && (forall i :: 0 <= i < Len(w) ==> r.1[i] != Cursor)
  {
  }

  /** `Runes` only looks at the target and at the slots below the effective
      length: two words agreeing there display the same. */
  lemma RunesDependOnVisibleSlots(w1: Word, w2: Word)
    requires |w1.letters| <= |w1.input| && |w2.letters| <= |w2.input|
    requires w1.letters == w2.letters && Len(w1) == Len(w2)
    requires forall j :: 0 <= j < Len(w1) ==> w1.input[j] == w2.input[j]
    ensures Runes(w1) == Runes(w2)
  {
    var r1, r2 := Runes(w1), Runes(w2);
    forall i | 0 <= i < Len(w1)
      ensures r1.0[i] == r2.0[i] && r1.1[i] == r2.1[i]
    {
      assert Classify(w1, i) == Classify(w2, i);
    }
    assert r1.0 == r2.0;
    assert r1.1 == r2.1;
  }

  /** Nothing is stored at or after the cursor. Every keystroke keeps this. */
  predicate ClearAhead(w: Word)
  {
    forall j :: w.cursor <= j < |w.input| ==> w.input[j] == Empty
  }

  /** The tidiness a word keeps when only non-empty characters are typed:
      nothing is stored at or after the cursor, and every overflow slot
      before the cursor holds a typed character. */
  predicate Tidy(w: Word)
  {
    && ClearAhead(w)
    && (forall j :: |w.letters| <= j < w.cursor && j < |w.input| ==> w.input[j] != Empty)
  }

  /** For a tidy word the effective length is the target's length or the
      cursor, whichever is larger; in particular the cursor never passes it. */
  lemma TidyLen(w: Word)
    requires Valid(w) && Tidy(w)
    ensures Len(w) == if w.cursor <= |w.letters| then |w.letters| else w.cursor
    ensures w.cursor <= Len(w)
  {
    var n := Len(w);
    LenSpec(w);
    var m := if w.cursor <= |w.letters| then |w.letters| else w.cursor;
    if m > |w.letters| {
      assert w.input[m - 1] != Empty;
    }
    LenUnique(w.input, |w.letters|, n, m);
  }

  /** A buffer that is a whole multiple of the target's length and below the
      cap can grow by one more target length and stay within the cap. */
  lemma GrowthStaysInShape(n: nat, l: nat)
    requires 0 < l && n % l == 0 && n < MaxGrowth * l
    ensures (n + l) % l == 0 && n + l <= MaxGrowth * l
  {
    var k := n / l;
    assert n == k * l;
    assert n + l == (k + 1) * l;
  }
}

=== FILE: wrappers.dfy ===
/** An optional value: `NewWord` returns nil for an empty word. */
module Wrappers {

  datatype Option<+T> = None | Some(value: T)
}
